=== FILE: README.md ===
# Runtime effect rendering in Impeller, modelled in Dafny

This project models `RuntimeEffectContents::Render` from Impeller, Flutter's renderer. The function performs one draw of a user-supplied runtime fragment program, in four steps:

1. It gets or registers the program's fragment function in the shader library. A clean hit is used as is. A dirty hit first purges the pipelines built on the old function, then unregisters that function. A miss registers the code.
2. It builds a pipeline descriptor and gets or creates the pipeline from the pipeline library.
3. It binds the fragment-stage uniforms and textures with two cursors. The buffer index counts every uniform processed. The sampler index counts sampled images only.
4. It appends exactly one draw command. When the geometry asks for overdraw prevention, a clip restore follows the command.

Modules:

- `Base`: `Option`, `Result`, `Max`.
- `ShaderLibrary`: the registry of shader functions. It maps an entrypoint and a stage to a function identity. In the model each successful registration mints a fresh identity (see "Left out").
- `PipelineLibrary`: pipeline descriptors, render-state options, and the pipeline cache keyed by descriptor.
- `Uniforms`: the uniform kinds and texture inputs. It holds the binding loop `BindFragmentUniforms` and the per-position reference binding `ExpectedBinding` it is proved against.
- `RuntimeEffect`: the contents and their setters, shader resolution (`GetOrRegisterShader`), pipeline options and descriptor, and `Render`.

Collaborators whose code is not part of this model are given as values in `Collaborators`:

- the shader compiler's verdict on the code mapping;
- the backend's pipeline build result;
- the clip restore's return value;
- the platform's default uniform alignment;
- the options derived from pass and entity;
- the geometry result.

The render pass is a sequence of entries: draw commands and clip-restore draws.

Order of effects in the code:

- The dirty flag is cleared right after the function is fetched again (line 91). That is before the pipeline is fetched (line 130). So when the pipeline fetch fails after a recompilation, `Render` returns false with the stage already clean. Only the two resolution failures leave a set dirty flag set.
- The primitive type is always taken from the geometry, whether or not overdraw prevention is on (line 127). The stencil pixel format is always set (line 120).
- Registration uses the runtime stage's own stage kind (line 69), but both lookups ask for a fragment function (lines 52-53, 81-82). So a non-fragment stage with no earlier fragment registration can never be resolved (`NonFragmentStageNeverResolves`).

## Model

| member | source | states |
|---|---|---|
| `ShaderLibrary.GetFunction` | impeller/entity/contents/runtime_effect_contents.cc:52-53 | The lookup yields a function exactly when the (entrypoint, stage) key is registered, and then the registered one. |
| `ShaderLibrary.UnregisterFunction` | impeller/entity/contents/runtime_effect_contents.cc:57-58 | Unregistering removes exactly the given key. Every other registration and the identity counter are kept. |
| `ShaderLibrary.RegisterFunction` | impeller/entity/contents/runtime_effect_contents.cc:64-75 | The awaited callback reports success unless the compiler rejects the code. An accepted function is stored under the key with a fresh identity. Otherwise the library is unchanged. |
| `PipelineLibrary.RemovePipelinesWithEntryPoint` | impeller/entity/contents/runtime_effect_contents.cc:56 | Exactly the cached pipelines whose descriptor names the function are dropped. The others keep their pipeline. |
| `PipelineLibrary.GetPipeline` | impeller/entity/contents/runtime_effect_contents.cc:130 | An equal cached descriptor yields its pipeline and leaves the cache alone. Otherwise the backend's build is returned and, if there is one, cached. No existing entry changes. |
| `PipelineLibrary.GetPipelineTwiceBuildsOnce` | impeller/entity/contents/runtime_effect_contents.cc:130-134 | Once a descriptor has yielded a pipeline, asking again returns the same pipeline and the same cache, whatever the backend would build. Repeated draws compile once. |
| `RuntimeEffect.SetRuntimeStage` | impeller/entity/contents/runtime_effect_contents.cc:25-28 | Replaces the runtime stage. The uniform data and texture inputs are untouched. |
| `RuntimeEffect.SetUniformData` | impeller/entity/contents/runtime_effect_contents.cc:30-33 | Replaces the uniform bytes. The stage and texture inputs are untouched. |
| `RuntimeEffect.SetTextureInputs` | impeller/entity/contents/runtime_effect_contents.cc:35-38 | Replaces the texture inputs. The stage and uniform bytes are untouched. |
| `RuntimeEffect.GetOrRegisterShader` | impeller/entity/contents/runtime_effect_contents.cc:52-92 | Three cases. A clean hit returns the registered function and performs no library operation. A dirty hit purges the pipelines on the old function, then unregisters it, then registers, in that order. The purge drops exactly the pipelines on the old function, and every other cached pipeline is kept as it was. A miss registers first and leaves the pipelines alone. Outside the fast path the operations are exactly these: the purge and unregistration of a dirty hit, one registration attempt, and `MarkedClean` on success. Outside the fast path the result is fixed by the compiler's verdict. A rejection is the build failure. An accepted fragment compile succeeds with the freshly minted function. Any other accepted compile is missing right after registering. The shader library afterwards is also fixed. A dirty hit has the old fragment function unregistered. Only an accepted compile stores a function, under the stage's own kind with the fresh identity. No other registration changes. Both failures keep the dirty flag. Success leaves the stage clean, with the returned function registered as the fragment function. A success outside the fast path ends with `MarkedClean`. |
| `RuntimeEffect.StalePipelinesUnreachable` | impeller/entity/contents/runtime_effect_contents.cc:55-91 | Resolution keeps every function id in the libraries minted. After a dirty hit no cached pipeline names the old function. A successful recompile yields a different function on which no cached pipeline is built yet; that part follows from the fresh-identity assumption under "Left out". |
| `RuntimeEffect.SecondResolutionIsFastPath` | impeller/entity/contents/runtime_effect_contents.cc:52-63 | After a successful resolution, resolving the same stage again is the fast path: the same function, no library operation and no state change, whatever the compiler would answer. |
| `RuntimeEffect.CleanStageStaysSilent` | impeller/entity/contents/runtime_effect_contents.cc:52-63 | If the fragment function is registered and the stage is clean, any number of further draws of the unchanged stage perform no purge, unregister or registration. Each draw sees the libraries, including the pipeline cache, as the draw before it left them. |
| `RuntimeEffect.RepeatedDrawsRegisterOnce` | impeller/entity/contents/runtime_effect_contents.cc:52-92 | When the first of several draws of an unchanged stage resolves its function, the library operations of the whole series are exactly those of the first draw. The program is compiled at most once. |
| `RuntimeEffect.NewProgramCompiledOnce` | impeller/entity/contents/runtime_effect_contents.cc:64-91 | A new fragment program that the compiler accepts is registered by the first of any number of draws and marked clean. No later draw touches the shader library. |
| `RuntimeEffect.CachedPipelineReused` | impeller/entity/contents/runtime_effect_contents.cc:52-63 | While the stage is clean and its descriptor is cached, draws with the same pass and entity options fetch the cached pipeline and leave both libraries unchanged, whatever the compiler or backend would answer. |
| `RuntimeEffect.RepeatedDrawsReusePipeline` | impeller/entity/contents/runtime_effect_contents.cc:122-134 | Successive draws of an unchanged stage with one geometry and the same pass and entity options: once the first draw fetches a pipeline, every later draw fetches the same one, and the libraries stay as the first draw left them. |
| `RuntimeEffect.NonFragmentStageNeverResolves` | impeller/entity/contents/runtime_effect_contents.cc:67-89 | A stage whose kind is not fragment, with no fragment function registered yet, always fails to resolve. It registers under its own kind but is fetched again as a fragment function. |
| `RuntimeEffect.RuntimeEffectOptions` | impeller/entity/contents/runtime_effect_contents.cc:122-128 | With overdraw prevention the stencil compares Equal and operates IncrementClamp. Without it the options are those derived from pass and entity. In both cases the primitive type is the geometry's, and sample count and blend mode are kept. |
| `RuntimeEffect.RuntimeEffectDescriptor` | impeller/entity/contents/runtime_effect_contents.cc:105-121 | The descriptor's vertex stage is the library's fixed vertex function and its fragment stage is the library's current fragment function for the entrypoint. Its vertex layout is the fixed runtime-effect layout. It has one default-format color attachment with blending on, and the default stencil format. It carries the options given. |
| `RuntimeEffect.DescriptorUsesResolvedFunction` | impeller/entity/contents/runtime_effect_contents.cc:108-111 | Fetching the fragment function a second time for the descriptor yields exactly the function the resolution returned. |
| `Uniforms.FirstUnsupported` | impeller/entity/contents/runtime_effect_contents.cc:193-206 | The binding loop stops at the first uniform that is neither a sampled image nor a float. Every uniform before it is supported. |
| `Uniforms.UniformAlignment` | impeller/entity/contents/runtime_effect_contents.cc:180-181 | A float's alignment is at least the default alignment and at least `bit_width / 8`, and equals one of them. |
| `Uniforms.BindFragmentUniforms` | impeller/entity/contents/runtime_effect_contents.cc:154-210 | The loop finishes exactly when every uniform is supported. It binds exactly the uniforms before the first unsupported one, and binding `k` is `ExpectedBinding(k)`. For a sampled image that is texture input `s` at texture and sampler index `s`, where `s` counts the sampled images before `k`. For a float it is buffer index `k` with the `size` bytes at byte `location * 4`, under `UniformAlignment`. The loop invariants tie `buffer_index` to the uniforms processed and `sampler_index` to the sampled images among them. |
| `Uniforms.TextureInputsConsumedInOrder` | impeller/entity/contents/runtime_effect_contents.cc:155-177 | Across any bound prefix, the image bindings use texture indices 0, 1, 2, … in order, one per sampled image. Each texture input is consumed once and in order, whatever floats lie between. |
| `RuntimeEffect.Render` | impeller/entity/contents/runtime_effect_contents.cc:40-217 | Only the stage's dirty flag can change. The pass is left untouched, or it gains one draw command, optionally followed by one clip restore for the same entity. The inputs need to cover the uniforms only when the binding loop is reached. Resolution failure: false, command list unchanged, dirty flag kept. Pipeline fetch failure: false, command list unchanged. An unsupported uniform kind: true, command list unchanged. The libraries, the stage and the fetched pipeline are those of the draw's library step, which the successive-draw lemmas are stated over. Otherwise the command holds the fetched pipeline, the entity's stencil depth, the geometry's vertex buffer and transform, and `ExpectedBinding` for every uniform. The result is the clip restore's when overdraw prevention is on, and true when it is off. Consistent libraries stay consistent. |

## Left out

- The promise/future handoff around registration (lines 64-75) is modelled as a synchronous call that returns the callback's flag. Threads and blocking are not modelled.
- The shader compiler, the pipeline backend, the sampler library, the transient buffer, the geometry resolver, `OptionsFromPassAndEntity` and `ClipRestoreContents` are not part of this model. Their answers for one draw are parameters. `ToShaderStage` is not part of this model either: `RuntimeStage.shaderStage` already holds the converted `ShaderStage`.
  - A sampler is represented by its sampler descriptor.
  - A transient-buffer region is represented by the bytes copied into it and their alignment, with no offsets.
  - The vertex uniform is the geometry's transform.
  - The clip restore is recorded as one pass entry.
- `RuntimeEffectDescriptor`: the vertex descriptor is one fixed value. A failure of `SetStageInputs` (lines 113-115) is only logged in the source and does not abort, so it is not modelled.
- The vertex entrypoint name comes from a generated header that is not part of this model. `VertexEntrypoint` holds a stand-in name, and only its being fixed matters.
- The shader library's code is not part of this model. Its identities are assumed fresh: every successful registration mints a new `FunctionId`, so a recompiled function never equals the one it replaces. Under that assumption no cached descriptor can name the new function. In the model the purge of a dirty hit therefore only frees cache entries: a later draw would miss the cache even without it. A library that reuses identities across re-registration, where the purge is what keeps a later draw from fetching a pipeline built on the obsolete function, is not modelled.
- The pipeline library's code is not part of this model. `GetPipeline` assumes a failed build is not cached, so the next draw with the same descriptor asks the backend again. The call site (line 130) does not show this.
- `Render`: binding names are modelled as owned copies of the uniform's name. The source iterates over a per-iteration copy of each uniform description (line 156) and stores `uniform.name.c_str()` in the image and uniform slots (lines 170, 187). Those pointers point into the copy, which ends with its iteration, before the command is appended at line 212. The model does not track that lifetime.
- `DefaultUniformAlignment()` and `RuntimeUniformDescription::GetSize()` are not part of this model. The alignment is a parameter and the size is a field of the uniform description.
- `Render` requires `InputsCover` for draws whose resolution and pipeline fetch succeed, since only those reach the binding loop. `InputsCover` means every sampled image the loop reaches has a texture input, and every float it reaches lies inside the uniform bytes. The source checks the first only with a debug assertion (line 163) and the second not at all, so a violation is undefined behaviour, not an error path.
- `Render`: the pass's transient buffer is not modelled. In the source the vertex uniform and any float uniforms have already been written into it (lines 148, 182) when an unsupported kind ends the draw at line 206. The model only states that the command list is unchanged.
- `Render`: the runtime stage is a value, not shared. The source holds it through a `std::shared_ptr` (lines 25-26), and the `const` method `Render` (line 42) clears its dirty flag through that pointer (line 91), so every holder of the stage sees the change. The model returns the updated stage as `stage'` and leaves writing it back, and any other holder of the same stage, to the caller.
- `Render` does not model `size_t` overflow of `location * 4`, or null `runtime_stage_` and `uniform_data_` pointers.
- Validation log messages, shader metadata and labels are not modelled. The two resolution failures are distinguished by the `ShaderError` tag only.

=== FILE: base.dfy ===
/** Small shared vocabulary: optional values, results, the larger of two sizes. */
module Base {

  /** A value that may be absent, the model of a null `std::shared_ptr`. */
  datatype Option<+T> = None | Some(value: T)

  /** Either a value or the reason there is none. */
  datatype Result<+T, +E> = Ok(value: T) | Err(error: E)

  /** `std::max` over unsigned sizes. */
  function Max(a: nat, b: nat): (m: nat)
    ensures m >= a && m >= b
    ensures m == a || m == b
  {
    if a < b then b else a
  }
}

=== FILE: pipeline_library.dfy ===
/**
  The pipeline library as the runtime effect sees it: a cache from pipeline
  descriptors to compiled pipelines. Two equal descriptors share one entry.
 */
module PipelineLibrary {
  import opened Base
  import opened ShaderLibrary

  datatype CompareFunction = Never | Always | Less | Equal | LessEqual | Greater | NotEqual | GreaterEqual

  datatype StencilOperation =
    Keep | Zero | SetToReferenceValue | IncrementClamp | DecrementClamp | Invert | IncrementWrap | DecrementWrap

  datatype PrimitiveType = Triangle | TriangleStrip | Line | LineStrip | Point

  datatype PixelFormat = DefaultColor | DefaultStencil

  /**
    Render-state options applied on top of a descriptor
    (`ContentContextOptions`); sample count and blend mode stand for the
    fields this core never touches.
   */
  datatype Options = Options(
    sampleCount: nat,
    blendMode: nat,
    stencilCompare: CompareFunction,
    stencilOperation: StencilOperation,
    primitiveType: PrimitiveType)

  /** The vertex layout built from the fixed runtime-effect vertex stage inputs. */
  datatype VertexLayout = RuntimeEffectVertexInputs

  datatype ColorAttachment = ColorAttachment(format: PixelFormat, blendingEnabled: bool)

  /** The cache key: shader stages, vertex layout, attachments and render state. */
  datatype Descriptor = Descriptor(
    debugLabel: string,
    vertexFunction: Option<FunctionId>,
    fragmentFunction: Option<FunctionId>,
    vertexLayout: VertexLayout,
    color: ColorAttachment,
    stencilFormat: PixelFormat,
    options: Options)

  /** The identity of one compiled pipeline. */
  type PipelineId = nat

  datatype Cache = Cache(pipelines: map<Descriptor, PipelineId>)

  /** The descriptor builds on function `f` in one of its stages. */
  predicate References(d: Descriptor, f: FunctionId) {
    d.vertexFunction == Some(f) || d.fragmentFunction == Some(f)
  }

  /** Every function the descriptor names was minted before `bound`. */
  predicate FunctionsBelow(d: Descriptor, bound: FunctionId) {
    && (d.vertexFunction.Some? ==> d.vertexFunction.value < bound)
    && (d.fragmentFunction.Some? ==> d.fragmentFunction.value < bound)
  }

  /** `RemovePipelinesWithEntryPoint`: drops exactly the pipelines built on `f`. */
  function RemovePipelinesWithEntryPoint(c: Cache, f: FunctionId): (r: Cache)
    ensures forall d :: d in r.pipelines <==> d in c.pipelines && !References(d, f)
    ensures forall d :: d in r.pipelines ==> r.pipelines[d] == c.pipelines[d]
  {
    Cache(map d | d in c.pipelines && !References(d, f) :: c.pipelines[d])
  }

  /**
    `GetPipeline(desc).Get()`: a cached pipeline for an equal descriptor is
    returned as is; otherwise the backend's build result `built` is returned
    and, when there is one, cached under the descriptor. A failed build is
    not cached, so the next request asks the backend again.
   */
  function GetPipeline(c: Cache, d: Descriptor, built: Option<PipelineId>): (r: (Option<PipelineId>, Cache))
    ensures d in c.pipelines ==> r == (Some(c.pipelines[d]), c)
    ensures d !in c.pipelines ==> r.0 == built
    ensures r.0.Some? ==> d in r.1.pipelines && r.1.pipelines[d] == r.0.value
    ensures r.0.None? ==> r.1 == c
    ensures forall e :: e in r.1.pipelines <==> e in c.pipelines || (e == d && r.0.Some?)
    ensures forall e :: e in c.pipelines ==> r.1.pipelines[e] == c.pipelines[e]
  {
    if d in c.pipelines then (Some(c.pipelines[d]), c)
    else if built.Some? then (built, Cache(c.pipelines[d := built.value]))
    else (None, c)
  }

  /**
    Asking twice for the same descriptor compiles at most once: once a
    pipeline was returned, the next request returns the same pipeline and
    leaves the cache alone, whatever the backend would build.
   */
  lemma GetPipelineTwiceBuildsOnce(c: Cache, d: Descriptor, built: Option<PipelineId>, builtAgain: Option<PipelineId>)
    requires GetPipeline(c, d, built).0.Some?
    ensures var first := GetPipeline(c, d, built);
            GetPipeline(first.1, d, builtAgain) == first
  {
  }
}

=== FILE: runtime_effect.dfy ===
/**
  `RuntimeEffectContents`: one draw of a user-supplied fragment program.
  `Render` gets or registers the program's fragment function, builds and
  fetches the pipeline, binds the fragment uniforms and textures, and only
  then appends one draw command, followed by a clip restore when the
  geometry asks for overdraw prevention.
 */
module RuntimeEffect {
  import opened Base
  import opened ShaderLibrary
  import opened PipelineLibrary
  import opened Uniforms

  /**
    The runtime stage: entrypoint, the stage kind it registers under, its
    uniforms, and the flag set when its code changed since it was last
    compiled. The code itself only matters through the compiler's verdict.
   */
  datatype RuntimeStage = RuntimeStage(
    entrypoint: string,
    shaderStage: ShaderStage,
    uniforms: seq<UniformDescription>,
    dirty: bool)

  /** The three inputs the contents hold between draws. */
  datatype Contents = Contents(stage: RuntimeStage, uniformData: seq<byte>, textureInputs: seq<TextureInput>)

  function SetRuntimeStage(c: Contents, stage: RuntimeStage): (r: Contents)
    ensures r.stage == stage
    ensures r.uniformData == c.uniformData && r.textureInputs == c.textureInputs
  {
    c.(stage := stage)
  }

  function SetUniformData(c: Contents, data: seq<byte>): (r: Contents)
    ensures r.uniformData == data
    ensures r.stage == c.stage && r.textureInputs == c.textureInputs
  {
    c.(uniformData := data)
  }

  function SetTextureInputs(c: Contents, inputs: seq<TextureInput>): (r: Contents)
    ensures r.textureInputs == inputs
    ensures r.stage == c.stage && r.uniformData == c.uniformData
  {
    c.(textureInputs := inputs)
  }

  /** The shader and pipeline libraries of the rendering context. */
  datatype Context = Context(shaders: Library, pipelines: Cache)

  /** Every function id the context mentions has been minted. */
  ghost predicate Consistent(ctx: Context) {
    && Valid(ctx.shaders)
    && forall d :: d in ctx.pipelines.pipelines ==> FunctionsBelow(d, ctx.shaders.nextId)
  }

  //--------------------------------------------------------------------------
  // Get or register the fragment function.

  datatype ShaderError = BuildFailed | MissingAfterRegister

  /**
    The library operations, in the order the draw performs them. A
    registration is recorded whether or not the compiler accepts the code.
   */
  datatype LibraryEvent =
    | PurgedPipelines(purged: FunctionId)
    | Unregistered(key: FunctionKey)
    | RegisterAttempted(key: FunctionKey)
    | MarkedClean

  datatype Resolution = Resolution(
    result: Result<FunctionId, ShaderError>,
    shaders: Library,
    pipelines: Cache,
    dirty: bool,
    events: seq<LibraryEvent>)

  /** True when the fragment function is registered and the stage is clean. */
  predicate CleanHit(shaders: Library, stage: RuntimeStage) {
    FunctionKey(stage.entrypoint, Fragment) in shaders.functions && !stage.dirty
  }

  /** True when the fragment function is registered but the stage changed since. */
  predicate DirtyHit(shaders: Library, stage: RuntimeStage) {
    FunctionKey(stage.entrypoint, Fragment) in shaders.functions && stage.dirty
  }

  /**
    Fetches the fragment function for the stage's entrypoint. A clean hit is
    used as is. A dirty hit first purges the pipelines built on the old
    function and unregisters it. Without a usable function the stage is
    registered under its own stage kind and then fetched again as a fragment
    function; only when both succeed is the stage marked clean.
   */
  function GetOrRegisterShader(shaders: Library, pipelines: Cache, stage: RuntimeStage, compilation: Compilation)
    : (r: Resolution)
    // the fast path touches nothing
    ensures CleanHit(shaders, stage) ==>
              r == Resolution(Ok(shaders.functions[FunctionKey(stage.entrypoint, Fragment)]), shaders, pipelines, false, [])
    ensures r.events == [] <==> CleanHit(shaders, stage)
    // a dirty hit purges exactly the pipelines built on the old function
    ensures DirtyHit(shaders, stage) ==>
              var stale := shaders.functions[FunctionKey(stage.entrypoint, Fragment)];
              r.pipelines == RemovePipelinesWithEntryPoint(pipelines, stale)
    // a miss leaves the pipelines alone
    ensures FunctionKey(stage.entrypoint, Fragment) !in shaders.functions ==> r.pipelines == pipelines
    // the error cases keep the dirty flag; success leaves the stage clean
    ensures !CleanHit(shaders, stage) && compilation.Rejected? <==> r.result == Err(BuildFailed)
    ensures r.result.Err? ==> r.dirty == stage.dirty && MarkedClean !in r.events
    ensures r.result.Ok? ==> !r.dirty && GetFunction(r.shaders, stage.entrypoint, Fragment) == Some(r.result.value)
    // outside the fast path the operations are exactly, in this order, the purge and
    // unregistration of a dirty hit, the registration attempt, and the clean mark of a success
    ensures !CleanHit(shaders, stage) ==>
              r.events
                == (if DirtyHit(shaders, stage)
                    then [PurgedPipelines(shaders.functions[FunctionKey(stage.entrypoint, Fragment)]),
                          Unregistered(FunctionKey(stage.entrypoint, Fragment))]
                    else [])
                   + [RegisterAttempted(FunctionKey(stage.entrypoint, stage.shaderStage))]
                   + (if r.result.Ok? then [MarkedClean] else [])
    // outside the fast path an accepted fragment compile succeeds with the fresh function;
    // any other accepted compile leaves no fragment function to fetch
    ensures !CleanHit(shaders, stage) && compilation.Accepted? && stage.shaderStage == Fragment ==>
              r.result == Ok(shaders.nextId)
    ensures !CleanHit(shaders, stage) && !compilation.Rejected? && !(compilation.Accepted? && stage.shaderStage == Fragment)
            ==> r.result == Err(MissingAfterRegister)
    // the shader library afterwards: the old fragment function is gone after a dirty hit,
    // and only an accepted compile stores anything, under the stage's own kind with a fresh id
    ensures DirtyHit(shaders, stage) && !compilation.Accepted? ==>
              r.shaders == UnregisterFunction(shaders, stage.entrypoint, Fragment)
    ensures FunctionKey(stage.entrypoint, Fragment) !in shaders.functions && !compilation.Accepted? ==>
              r.shaders == shaders
    ensures !CleanHit(shaders, stage) && compilation.Accepted? ==>
              && r.shaders.functions
                   == (shaders.functions - {FunctionKey(stage.entrypoint, Fragment)})
                        [FunctionKey(stage.entrypoint, stage.shaderStage) := shaders.nextId]
              && r.shaders.nextId == shaders.nextId + 1
  {
    var fragmentKey := FunctionKey(stage.entrypoint, Fragment);
    var found := GetFunction(shaders, stage.entrypoint, Fragment);
    if found.Some? && !stage.dirty then
      Resolution(Ok(found.value), shaders, pipelines, stage.dirty, [])
    else
      var purged :=
        if found.Some? then RemovePipelinesWithEntryPoint(pipelines, found.value) else pipelines;
      var unregistered :=
        if found.Some? then UnregisterFunction(shaders, stage.entrypoint, Fragment) else shaders;
      var invalidation :=
        if found.Some? then [PurgedPipelines(found.value), Unregistered(fragmentKey)] else [];
      var registration := RegisterFunction(unregistered, stage.entrypoint, stage.shaderStage, compilation);
      var events := invalidation + [RegisterAttempted(FunctionKey(stage.entrypoint, stage.shaderStage))];
      if !registration.0 then
        Resolution(Err(BuildFailed), registration.1, purged, stage.dirty, events)
      else
        var refetched := GetFunction(registration.1, stage.entrypoint, Fragment);
        if refetched.None? then
          Resolution(Err(MissingAfterRegister), registration.1, purged, stage.dirty, events)
        else
          Resolution(Ok(refetched.value), registration.1, purged, false, events + [MarkedClean])
  }

  /**
    Resolution keeps the context consistent, and after a dirty hit the old
    function is gone for good: no cached pipeline is built on it, and the
    recompiled function is a new one on which no cached pipeline is built
    either.
   */
  lemma StalePipelinesUnreachable(ctx: Context, stage: RuntimeStage, compilation: Compilation)
    ensures var r := GetOrRegisterShader(ctx.shaders, ctx.pipelines, stage, compilation);
            Consistent(ctx) ==> Consistent(Context(r.shaders, r.pipelines))
    ensures var r := GetOrRegisterShader(ctx.shaders, ctx.pipelines, stage, compilation);
            Consistent(ctx) && DirtyHit(ctx.shaders, stage) ==>
              var stale := ctx.shaders.functions[FunctionKey(stage.entrypoint, Fragment)];
              && (forall d :: d in r.pipelines.pipelines ==> !References(d, stale))
              && (r.result.Ok? ==>
                    && r.result.value != stale
                    && forall d :: d in r.pipelines.pipelines ==> !References(d, r.result.value))
  {
    if Consistent(ctx) {
      var r := GetOrRegisterShader(ctx.shaders, ctx.pipelines, stage, compilation);
      var n := ctx.shaders.nextId;
      assert r.shaders.nextId >= n;
      forall d | d in r.pipelines.pipelines
        ensures FunctionsBelow(d, r.shaders.nextId)
      {
        assert d in ctx.pipelines.pipelines;
        assert FunctionsBelow(d, n);
      }
      if r.result.Ok? && !CleanHit(ctx.shaders, stage) {
        assert r.result.value == n;
      }
    }
  }

  /**
    A successful resolution makes the next one for the same stage the fast
    path: no purge, no registration, whatever the compiler would answer.
   */
  lemma SecondResolutionIsFastPath(
    shaders: Library, pipelines: Cache, stage: RuntimeStage, compilation: Compilation, recompilation: Compilation)
    requires GetOrRegisterShader(shaders, pipelines, stage, compilation).result.Ok?
    ensures var r := GetOrRegisterShader(shaders, pipelines, stage, compilation);
            GetOrRegisterShader(r.shaders, r.pipelines, stage.(dirty := r.dirty), recompilation)
              == Resolution(r.result, r.shaders, r.pipelines, false, [])
  {
  }

  /**
    A stage whose kind is not fragment registers under its own kind but is
    looked up as a fragment function, so without an earlier fragment
    registration it never resolves: the build fails or the function is
    missing right after registering.
   */
  lemma NonFragmentStageNeverResolves(shaders: Library, pipelines: Cache, stage: RuntimeStage, compilation: Compilation)
    requires stage.shaderStage != Fragment
    requires FunctionKey(stage.entrypoint, Fragment) !in shaders.functions
    ensures GetOrRegisterShader(shaders, pipelines, stage, compilation).result.Err?
  {
  }

  //--------------------------------------------------------------------------
  // Pipeline options and descriptor.

  /** What the geometry resolver reports for this draw. */
  datatype GeometryResult = GeometryResult(
    primitiveType: PrimitiveType,
    vertexBuffer: nat,
    transform: seq<real>,
    preventOverdraw: bool)

  /**
    The render-state options of the draw: the ones derived from pass and
    entity, with the stencil set to compare-equal and increment-clamp when
    overdraw prevention is on, and the primitive type of the geometry.
   */
  function RuntimeEffectOptions(fromPassAndEntity: Options, geometry: GeometryResult): (o: Options)
    ensures o.primitiveType == geometry.primitiveType
    ensures geometry.preventOverdraw ==> o.stencilCompare == Equal && o.stencilOperation == IncrementClamp
    ensures !geometry.preventOverdraw ==> o == fromPassAndEntity.(primitiveType := geometry.primitiveType)
    ensures o.sampleCount == fromPassAndEntity.sampleCount && o.blendMode == fromPassAndEntity.blendMode
  {
    var stencilled :=
      if geometry.preventOverdraw then
        fromPassAndEntity.(stencilCompare := Equal, stencilOperation := IncrementClamp)
      else fromPassAndEntity;
    stencilled.(primitiveType := geometry.primitiveType)
  }

  /** The entrypoint of the fixed vertex stage every runtime effect uses. */
  const VertexEntrypoint: string := "runtime_effect_vertex_main"

  /**
    The pipeline descriptor: the fixed vertex function and the fragment
    function as the library holds them now, the fixed vertex layout, one
    blended default-format color attachment, the default stencil format,
    and the options.
   */
  function RuntimeEffectDescriptor(shaders: Library, entrypoint: string, options: Options): (d: Descriptor)
    ensures d.vertexFunction == GetFunction(shaders, VertexEntrypoint, Vertex)
    ensures d.fragmentFunction == GetFunction(shaders, entrypoint, Fragment)
    ensures d.vertexLayout == RuntimeEffectVertexInputs
    ensures d.color == ColorAttachment(DefaultColor, true) && d.stencilFormat == DefaultStencil
    ensures d.options == options
  {
    Descriptor(
      "Runtime Stage",
      GetFunction(shaders, VertexEntrypoint, Vertex),
      GetFunction(shaders, entrypoint, Fragment),
      RuntimeEffectVertexInputs,
      ColorAttachment(DefaultColor, true),
      DefaultStencil,
      options)
  }

  /**
    The descriptor's fragment stage, fetched from the library a second time,
    is the function the resolution returned, and any descriptor built after
    a resolution names only minted functions.
   */
  lemma DescriptorUsesResolvedFunction(
    ctx: Context, stage: RuntimeStage, compilation: Compilation, options: Options)
    requires GetOrRegisterShader(ctx.shaders, ctx.pipelines, stage, compilation).result.Ok?
    ensures var r := GetOrRegisterShader(ctx.shaders, ctx.pipelines, stage, compilation);
            RuntimeEffectDescriptor(r.shaders, stage.entrypoint, options).fragmentFunction == Some(r.result.value)
  {
  }

  //--------------------------------------------------------------------------
  // The draw.

  datatype Entity = Entity(stencilDepth: nat)

  /** A draw command as appended to the pass. */
  datatype Command = Command(
    debugLabel: string,
    pipeline: PipelineId,
    stencilReference: nat,
    vertexBuffer: nat,
    vertexTransform: seq<real>,
    fragmentBindings: seq<Binding>)

  /** What the render pass records: draw commands and clip-restore draws. */
  datatype PassEntry = Draw(command: Command) | ClipRestore(entity: Entity)

  /**
    The answers of the collaborators whose code is outside this model, for
    one draw: the compiler's verdict, the backend's pipeline build, the
    clip restore's result, the platform's default uniform alignment and
    the options derived from pass and entity.
   */
  datatype Collaborators = Collaborators(
    compilation: Compilation,
    builtPipeline: Option<PipelineId>,
    clipRestoreResult: bool,
    defaultAlignment: nat,
    fromPassAndEntity: Options)

  /** The pipeline lookup `Render` performs after a successful resolution. */
  function FetchPipeline(r: Resolution, stage: RuntimeStage, geometry: GeometryResult, env: Collaborators)
    : (fetched: (Option<PipelineId>, Cache))
  {
    var options := RuntimeEffectOptions(env.fromPassAndEntity, geometry);
    GetPipeline(r.pipelines, RuntimeEffectDescriptor(r.shaders, stage.entrypoint, options), env.builtPipeline)
  }

  /**
    `Render`. The pass gains nothing unless every step succeeds, and then
    exactly one draw command, followed by one clip restore when overdraw
    prevention is on. Resolution and pipeline failures return false; an
    unsupported uniform kind returns true without drawing.
   */
  method Render(
    ctx: Context, contents: Contents, entity: Entity, geometry: GeometryResult, env: Collaborators,
    pass: seq<PassEntry>)
    returns (ok: bool, ctx': Context, stage': RuntimeStage, pass': seq<PassEntry>)
    // the binding loop is reached only after resolution and pipeline fetch succeed
    requires DrawLibraries(ctx, contents.stage, geometry, env).pipeline.Some? ==>
               InputsCover(contents.stage.uniforms, contents.uniformData, contents.textureInputs)
    // the pass is untouched, or gains one command and at most one clip restore after it
    ensures pass' == pass
            || (&& |pass| < |pass'| <= |pass| + 2
                && pass'[..|pass|] == pass
                && pass'[|pass|].Draw?
                && (|pass'| == |pass| + 2 ==> pass'[|pass| + 1] == ClipRestore(entity)))
    ensures Consistent(ctx) ==> Consistent(ctx')
    // only the dirty flag of the stage may change
    ensures stage' == contents.stage.(dirty := stage'.dirty)
    // the libraries, the stage and the pipeline are those of the draw's library step
    ensures var step := DrawLibraries(ctx, contents.stage, geometry, env);
            && ctx' == step.ctx && stage' == step.stage
            && (step.pipeline.None? ==> !ok && pass' == pass)
            && (|pass'| > |pass| ==> step.pipeline.Some? && pass'[|pass|].command.pipeline == step.pipeline.value)
    // resolution failure
    ensures var r := GetOrRegisterShader(ctx.shaders, ctx.pipelines, contents.stage, env.compilation);
            r.result.Err? ==>
              && !ok && pass' == pass && stage'.dirty == contents.stage.dirty
              && ctx' == Context(r.shaders, r.pipelines)
    // pipeline failure
    ensures var r := GetOrRegisterShader(ctx.shaders, ctx.pipelines, contents.stage, env.compilation);
            r.result.Ok? ==>
              var fetched := FetchPipeline(r, contents.stage, geometry, env);
              && ctx' == Context(r.shaders, fetched.1)
              && (fetched.0.None? ==> !ok && pass' == pass)
    // unsupported uniform: a successful draw that draws nothing
    ensures var r := GetOrRegisterShader(ctx.shaders, ctx.pipelines, contents.stage, env.compilation);
            r.result.Ok? && FetchPipeline(r, contents.stage, geometry, env).0.Some?
            && !AllSupported(contents.stage.uniforms) ==>
              ok && pass' == pass
    // the draw
    ensures var r := GetOrRegisterShader(ctx.shaders, ctx.pipelines, contents.stage, env.compilation);
            var us := contents.stage.uniforms;
            var fetched := FetchPipeline(r, contents.stage, geometry, env);
            r.result.Ok? && fetched.0.Some? && AllSupported(us) ==>
              && |pass'| == |pass| + (if geometry.preventOverdraw then 2 else 1)
              && pass'[|pass|].Draw?
              && var cmd := pass'[|pass|].command;
              && cmd.pipeline == fetched.0.value
              && cmd.stencilReference == entity.stencilDepth
              && cmd.vertexBuffer == geometry.vertexBuffer
              && cmd.vertexTransform == geometry.transform
              && |cmd.fragmentBindings| == |us|
              && (forall k :: 0 <= k < |us| ==>
                    cmd.fragmentBindings[k]
                      == ExpectedBinding(us, k, contents.uniformData, contents.textureInputs, env.defaultAlignment))
              && ok == (!geometry.preventOverdraw || env.clipRestoreResult)
  {
    var stage := contents.stage;
    pass' := pass;

    // Get or register the shader.
    var r := GetOrRegisterShader(ctx.shaders, ctx.pipelines, stage, env.compilation);
    StalePipelinesUnreachable(ctx, stage, env.compilation);
    stage' := stage.(dirty := r.dirty);
    ctx' := Context(r.shaders, r.pipelines);
    if r.result.Err? {
      return false, ctx', stage', pass';
    }

    // Get or create the pipeline.
    var options := RuntimeEffectOptions(env.fromPassAndEntity, geometry);
    var desc := RuntimeEffectDescriptor(r.shaders, stage.entrypoint, options);
    var fetched := GetPipeline(r.pipelines, desc, env.builtPipeline);
    ctx' := Context(r.shaders, fetched.1);
    if fetched.0.None? {
      return false, ctx', stage', pass';
    }

    // Bind the fragment uniforms; the vertex stage takes the geometry's transform.
    var complete, bindings := BindFragmentUniforms(
      stage.uniforms, contents.uniformData, contents.textureInputs, env.defaultAlignment);
    if !complete {
      return true, ctx', stage', pass';
    }
    var cmd := Command(
      "RuntimeEffectContents", fetched.0.value, entity.stencilDepth, geometry.vertexBuffer, geometry.transform,
      bindings);

    pass' := pass' + [Draw(cmd)];
    if geometry.preventOverdraw {
      pass' := pass' + [ClipRestore(entity)];
      return env.clipRestoreResult, ctx', stage', pass';
    }
    return true, ctx', stage', pass';
  }

  //--------------------------------------------------------------------------
  // Successive draws.

  /**
    The library side of one `Render`: the resolution, the pipeline fetched
    after a successful one, and the context and stage the draw leaves
    behind.
   */
  datatype LibraryStep = LibraryStep(resolution: Resolution, pipeline: Option<PipelineId>, ctx: Context, stage: RuntimeStage)

  function DrawLibraries(ctx: Context, stage: RuntimeStage, geometry: GeometryResult, env: Collaborators)
    : (step: LibraryStep)
  {
    var r := GetOrRegisterShader(ctx.shaders, ctx.pipelines, stage, env.compilation);
    if r.result.Err? then
      LibraryStep(r, None, Context(r.shaders, r.pipelines), stage.(dirty := r.dirty))
    else
      var fetched := FetchPipeline(r, stage, geometry, env);
      LibraryStep(r, fetched.0, Context(r.shaders, fetched.1), stage.(dirty := r.dirty))
  }

  /** The library operations and fetched pipelines of a series of draws, and the context after it. */
  datatype Series = Series(events: seq<LibraryEvent>, fetched: seq<Option<PipelineId>>, ctx: Context)

  /**
    Successive draws of one unchanged stage with one geometry, the `i`-th
    draw seeing collaborators `envs[i]` and the libraries and dirty flag
    the draw before it left behind.
   */
  function SuccessiveDraws(ctx: Context, stage: RuntimeStage, geometry: GeometryResult, envs: seq<Collaborators>)
    : (s: Series)
    ensures |s.fetched| == |envs|
    decreases |envs|
  {
    if envs == [] then Series([], [], ctx)
    else
      var step := DrawLibraries(ctx, stage, geometry, envs[0]);
      var rest := SuccessiveDraws(step.ctx, step.stage, geometry, envs[1..]);
      Series(step.resolution.events + rest.events, [step.pipeline] + rest.fetched, rest.ctx)
  }

  /** Once the fragment function is registered and the stage is clean, later draws touch no shader library. */
  lemma {:induction false} CleanStageStaysSilent(
    ctx: Context, stage: RuntimeStage, geometry: GeometryResult, envs: seq<Collaborators>)
    requires CleanHit(ctx.shaders, stage)
    ensures SuccessiveDraws(ctx, stage, geometry, envs).events == []
    decreases |envs|
  {
    if envs != [] {
      var step := DrawLibraries(ctx, stage, geometry, envs[0]);
      CleanStageStaysSilent(step.ctx, step.stage, geometry, envs[1..]);
    }
  }

  /**
    Drawing one unchanged stage many times compiles it at most once: if the
    first draw resolves the function, every library operation of the whole
    series is one of that first draw's.
   */
  lemma {:induction false} RepeatedDrawsRegisterOnce(
    ctx: Context, stage: RuntimeStage, geometry: GeometryResult, envs: seq<Collaborators>)
    requires envs != []
    requires GetOrRegisterShader(ctx.shaders, ctx.pipelines, stage, envs[0].compilation).result.Ok?
    ensures SuccessiveDraws(ctx, stage, geometry, envs).events
              == GetOrRegisterShader(ctx.shaders, ctx.pipelines, stage, envs[0].compilation).events
  {
    var step := DrawLibraries(ctx, stage, geometry, envs[0]);
    CleanStageStaysSilent(step.ctx, step.stage, geometry, envs[1..]);
  }

  /**
    A new fragment program the compiler accepts is compiled by the first of
    any number of draws and never again: the series registers it once and
    marks the stage clean, and nothing else.
   */
  lemma NewProgramCompiledOnce(
    ctx: Context, stage: RuntimeStage, geometry: GeometryResult, envs: seq<Collaborators>)
    requires envs != [] && envs[0].compilation.Accepted?
    requires stage.shaderStage == Fragment
    requires FunctionKey(stage.entrypoint, Fragment) !in ctx.shaders.functions
    ensures SuccessiveDraws(ctx, stage, geometry, envs).events
              == [RegisterAttempted(FunctionKey(stage.entrypoint, Fragment)), MarkedClean]
  {
    RepeatedDrawsRegisterOnce(ctx, stage, geometry, envs);
  }

  /**
    While the stage stays clean and its pipeline is cached, draws with the
    same pass and entity options fetch that pipeline and leave both
    libraries alone, whatever the compiler or the backend would answer.
   */
  lemma {:induction false} CachedPipelineReused(
    ctx: Context, stage: RuntimeStage, geometry: GeometryResult, envs: seq<Collaborators>, fromPassAndEntity: Options)
    requires CleanHit(ctx.shaders, stage)
    requires forall i :: 0 <= i < |envs| ==> envs[i].fromPassAndEntity == fromPassAndEntity
    requires RuntimeEffectDescriptor(ctx.shaders, stage.entrypoint, RuntimeEffectOptions(fromPassAndEntity, geometry))
               in ctx.pipelines.pipelines
    ensures var s := SuccessiveDraws(ctx, stage, geometry, envs);
            var d := RuntimeEffectDescriptor(ctx.shaders, stage.entrypoint, RuntimeEffectOptions(fromPassAndEntity, geometry));
            && s.ctx == ctx
            && forall i :: 0 <= i < |s.fetched| ==> s.fetched[i] == Some(ctx.pipelines.pipelines[d])
    decreases |envs|
  {
    if envs != [] {
      var step := DrawLibraries(ctx, stage, geometry, envs[0]);
      assert step.ctx == ctx && step.stage == stage;
      CachedPipelineReused(ctx, stage, geometry, envs[1..], fromPassAndEntity);
    }
  }

  /**
    Two or more draws of one unchanged stage with one geometry and the same
    pass and entity options: once the first draw fetches a pipeline, every
    later draw fetches the same one, and the libraries stay as the first
    draw left them.
   */
  lemma RepeatedDrawsReusePipeline(
    ctx: Context, stage: RuntimeStage, geometry: GeometryResult, envs: seq<Collaborators>)
    requires envs != []
    requires forall i :: 0 <= i < |envs| ==> envs[i].fromPassAndEntity == envs[0].fromPassAndEntity
    requires DrawLibraries(ctx, stage, geometry, envs[0]).pipeline.Some?
    ensures var first := DrawLibraries(ctx, stage, geometry, envs[0]);
            var s := SuccessiveDraws(ctx, stage, geometry, envs);
            && s.ctx == first.ctx
            && forall i :: 0 <= i < |s.fetched| ==> s.fetched[i] == first.pipeline
  {
    var first := DrawLibraries(ctx, stage, geometry, envs[0]);
    CachedPipelineReused(first.ctx, first.stage, geometry, envs[1..], envs[0].fromPassAndEntity);
  }
}

=== FILE: shader_library.dfy ===
/**
  The shader library as the runtime effect sees it: a registry from an
  entrypoint name and a shader stage to a compiled shader function.
  The library's own code is not part of this model: here every successful
  registration mints a new function identity, so a function that was
  unregistered and compiled again is a different function.
 */
module ShaderLibrary {
  import opened Base

  datatype ShaderStage = Unknown | Vertex | Fragment | TessellationControl | TessellationEvaluation | Compute

  /** The identity of one compiled shader function. */
  type FunctionId = nat

  datatype FunctionKey = FunctionKey(entrypoint: string, stage: ShaderStage)

  /** Registered functions, and the identity the next registration receives. */
  datatype Library = Library(functions: map<FunctionKey, FunctionId>, nextId: FunctionId)

  /** Every registered function was minted before `nextId`. */
  ghost predicate Valid(lib: Library) {
    forall k :: k in lib.functions ==> lib.functions[k] < lib.nextId
  }

  /** `GetFunction`: the function registered under the key, if any. */
  function GetFunction(lib: Library, entrypoint: string, stage: ShaderStage): (r: Option<FunctionId>)
    ensures r.Some? <==> FunctionKey(entrypoint, stage) in lib.functions
    ensures r.Some? ==> lib.functions[FunctionKey(entrypoint, stage)] == r.value
  {
    var key := FunctionKey(entrypoint, stage);
    if key in lib.functions then Some(lib.functions[key]) else None
  }

  /** `UnregisterFunction`: forgets exactly one key. */
  function UnregisterFunction(lib: Library, entrypoint: string, stage: ShaderStage): (r: Library)
    ensures FunctionKey(entrypoint, stage) !in r.functions
    ensures forall k :: k in r.functions <==> k in lib.functions && k != FunctionKey(entrypoint, stage)
    ensures forall k :: k in r.functions ==> r.functions[k] == lib.functions[k]
    ensures r.nextId == lib.nextId
  {
    lib.(functions := lib.functions - {FunctionKey(entrypoint, stage)})
  }

  /**
    What the shader compiler behind `RegisterFunction` reports for one
    code mapping: a failure, a success that stores the new function, or a
    success whose function cannot be found afterwards.
   */
  datatype Compilation = Rejected | Accepted | AcceptedUnstored

  /**
    `RegisterFunction` with its completion callback awaited: the flag the
    callback delivers, and the library afterwards.
   */
  function RegisterFunction(lib: Library, entrypoint: string, stage: ShaderStage, compilation: Compilation)
    : (r: (bool, Library))
    ensures r.0 <==> !compilation.Rejected?
    ensures compilation.Accepted? ==>
              r.1.functions == lib.functions[FunctionKey(entrypoint, stage) := lib.nextId]
              && r.1.nextId == lib.nextId + 1
    ensures !compilation.Accepted? ==> r.1 == lib
  {
    match compilation
    case Rejected => (false, lib)
    case AcceptedUnstored => (true, lib)
    case Accepted =>
      (true, Library(lib.functions[FunctionKey(entrypoint, stage) := lib.nextId], lib.nextId + 1))
  }
}

=== FILE: uniforms.dfy ===
/**
  Fragment-stage resource binding of a runtime effect: each uniform of the
  runtime stage, in declaration order, becomes one binding of the draw
  command. Sampled images take the next texture input; floats take a slice
  of the raw uniform bytes; any other kind stops the binding.
 */
module Uniforms {
  import opened Base

  /** One byte of the raw uniform buffer (`uint8_t`). */
  newtype byte = b: int | 0 <= b < 256

  datatype UniformType =
    | SampledImage | Float | Boolean
    | SignedByte | UnsignedByte | SignedShort | UnsignedShort
    | SignedInt | UnsignedInt | SignedInt64 | UnsignedInt64
    | HalfFloat | Double

  /**
    A uniform of the runtime stage. `location` counts floats into the raw
    uniform bytes; `size` is the byte count the description reports.
   */
  datatype UniformDescription = UniformDescription(
    name: string,
    location: nat,
    uniformType: UniformType,
    bitWidth: nat,
    size: nat)

  /** Filter and address modes of a sampler, kept opaque. */
  datatype SamplerDescriptor = SamplerDescriptor(modes: nat)

  /** A texture handle, kept opaque. */
  type TextureId = nat

  datatype TextureInput = TextureInput(samplerDescriptor: SamplerDescriptor, texture: TextureId)

  /** A region of the pass's transient buffer: the bytes copied in and their alignment. */
  datatype BufferView = BufferView(bytes: seq<byte>, alignment: nat)

  /** One fragment-stage resource bound on the command. */
  datatype Binding =
    | ImageBinding(name: string, textureIndex: nat, samplerIndex: nat, texture: TextureId, sampler: SamplerDescriptor)
    | UniformBinding(name: string, extRes0: nat, view: BufferView)

  /** `sizeof(float)`: the byte stride of a uniform location. */
  const FloatSize: nat := 4

  /** The kinds the binding loop handles; every other kind ends it. */
  predicate Supported(t: UniformType) {
    t.SampledImage? || t.Float?
  }

  /** Every uniform is of a kind the binding loop handles. */
  predicate AllSupported(us: seq<UniformDescription>) {
    forall k :: 0 <= k < |us| ==> Supported(us[k].uniformType)
  }

  /** The number of sampled-image uniforms among the first `k` of `us`. */
  function SampledBefore(us: seq<UniformDescription>, k: nat): (n: nat)
    requires k <= |us|
    ensures n <= k
  {
    if k == 0 then 0
    else SampledBefore(us, k - 1) + (if us[k - 1].uniformType.SampledImage? then 1 else 0)
  }

  /** The position of the first uniform the loop cannot bind, or `|us|`. */
  function FirstUnsupported(us: seq<UniformDescription>): (n: nat)
    ensures n <= |us|
    ensures forall k :: 0 <= k < n ==> Supported(us[k].uniformType)
    ensures n < |us| ==> !Supported(us[n].uniformType)
  {
    if us == [] || !Supported(us[0].uniformType) then 0
    else 1 + FirstUnsupported(us[1..])
  }

  /** `max(bit_width / 8, DefaultUniformAlignment())`. */
  function UniformAlignment(bitWidth: nat, defaultAlignment: nat): (a: nat)
    ensures a >= defaultAlignment
    ensures a >= bitWidth / 8
    ensures a == defaultAlignment || a == bitWidth / 8
  {
    Max(bitWidth / 8, defaultAlignment)
  }

  /**
    What the loop needs of its caller at uniform `k`: a texture input for
    the sampled image (the debug check on the sampler cursor), and the
    float's bytes inside the raw uniform data.
   */
  predicate Covered(us: seq<UniformDescription>, k: nat, data: seq<byte>, textures: seq<TextureInput>)
    requires k < |us|
  {
    && (us[k].uniformType.SampledImage? ==> SampledBefore(us, k) < |textures|)
    && (us[k].uniformType.Float? ==> us[k].location * FloatSize + us[k].size <= |data|)
  }

  /** Every uniform the loop reaches is covered. */
  predicate InputsCover(us: seq<UniformDescription>, data: seq<byte>, textures: seq<TextureInput>) {
    forall k :: 0 <= k < FirstUnsupported(us) ==> Covered(us, k, data, textures)
  }

  /**
    The binding uniform `k` must receive, stated per position: a sampled
    image is the `s`-th among the sampled images before it and binds
    texture input `s` at texture and sampler index `s`; a float binds at
    buffer index `k` the `size` bytes at byte `location * 4`.
   */
  function ExpectedBinding(
    us: seq<UniformDescription>, k: nat, data: seq<byte>, textures: seq<TextureInput>, defaultAlignment: nat)
    : (b: Binding)
    requires k < |us| && Supported(us[k].uniformType) && Covered(us, k, data, textures)
  {
    var u := us[k];
    if u.uniformType.SampledImage? then
      var s := SampledBefore(us, k);
      ImageBinding(u.name, s, s, textures[s].texture, textures[s].samplerDescriptor)
    else
      var start := u.location * FloatSize;
      UniformBinding(u.name, k, BufferView(data[start..start + u.size], UniformAlignment(u.bitWidth, defaultAlignment)))
  }

  /** Binding `b` is what uniform `k` must receive. */
  predicate BoundAt(
    b: Binding, us: seq<UniformDescription>, k: nat, data: seq<byte>, textures: seq<TextureInput>, defaultAlignment: nat)
  {
    && k < |us| && Supported(us[k].uniformType) && Covered(us, k, data, textures)
    && b == ExpectedBinding(us, k, data, textures, defaultAlignment)
  }

  /**
    The fragment-uniform loop of `Render`. `complete` is false when it met
    a kind it does not support; `bindings` are those made before stopping.
   */
  method BindFragmentUniforms(
    us: seq<UniformDescription>, data: seq<byte>, textures: seq<TextureInput>, defaultAlignment: nat)
    returns (complete: bool, bindings: seq<Binding>)
    requires InputsCover(us, data, textures)
    ensures complete <==> AllSupported(us)
    ensures |bindings| == FirstUnsupported(us)
    ensures forall k :: 0 <= k < |bindings| ==> BoundAt(bindings[k], us, k, data, textures, defaultAlignment)
  {
    var bufferIndex: nat := 0;
    var samplerIndex: nat := 0;
    bindings := [];
    var i := 0;
    while i < |us|
      invariant i <= FirstUnsupported(us)
      invariant bufferIndex == i
      invariant samplerIndex == SampledBefore(us, i)
      invariant |bindings| == i
      invariant forall k :: 0 <= k < i ==> bindings[k] == ExpectedBinding(us, k, data, textures, defaultAlignment)
    {
      var u := us[i];
      if u.uniformType.SampledImage? {
        assert Covered(us, i, data, textures);
        var input := textures[samplerIndex];
        var image := ImageBinding(u.name, samplerIndex, samplerIndex, input.texture, input.samplerDescriptor);
        assert image == ExpectedBinding(us, i, data, textures, defaultAlignment);
        bindings := bindings + [image];
        samplerIndex := samplerIndex + 1;
      } else if u.uniformType.Float? {
        assert Covered(us, i, data, textures);
        var alignment := UniformAlignment(u.bitWidth, defaultAlignment);
        var start := u.location * FloatSize;
        var uniform := UniformBinding(u.name, bufferIndex, BufferView(data[start..start + u.size], alignment));
        assert uniform == ExpectedBinding(us, i, data, textures, defaultAlignment);
        bindings := bindings + [uniform];
      } else {
        // Boolean, integer, half and double uniforms end the draw without a command
        return false, bindings;
      }
      bufferIndex := bufferIndex + 1;
      i := i + 1;
    }
    complete := true;
  }

  /** The texture indices of the image bindings, in binding order. */
  function TextureIndices(bs: seq<Binding>): (indices: seq<nat>) {
    if bs == [] then []
    else TextureIndices(bs[..|bs| - 1]) + (if bs[|bs| - 1].ImageBinding? then [bs[|bs| - 1].textureIndex] else [])
  }

  /** `[0, 1, …, n - 1]`. */
  function Range(n: nat): (r: seq<nat>)
    ensures |r| == n
    ensures forall i :: 0 <= i < n ==> r[i] == i
  {
    if n == 0 then [] else Range(n - 1) + [n - 1]
  }

  /**
    Texture inputs are consumed in order and each exactly once: the image
    bindings of any bound prefix use texture indices 0, 1, 2, … in turn,
    as many as there are sampled images in it, whatever floats sit
    between them.
   */
  lemma {:induction false} TextureInputsConsumedInOrder(
    us: seq<UniformDescription>, data: seq<byte>, textures: seq<TextureInput>, defaultAlignment: nat,
    bindings: seq<Binding>)
    requires InputsCover(us, data, textures)
    requires |bindings| <= FirstUnsupported(us)
    requires forall k :: 0 <= k < |bindings| ==>
               bindings[k] == ExpectedBinding(us, k, data, textures, defaultAlignment)
    ensures TextureIndices(bindings) == Range(SampledBefore(us, |bindings|))
  {
    if bindings != [] {
      var n := |bindings| - 1;
      var prefix := bindings[..n];
      TextureInputsConsumedInOrder(us, data, textures, defaultAlignment, prefix);
      var before := SampledBefore(us, n);
      assert TextureIndices(prefix) == Range(before);
      assert Covered(us, n, data, textures);
      var last := bindings[n];
      assert last == ExpectedBinding(us, n, data, textures, defaultAlignment);
      if us[n].uniformType.SampledImage? {
        assert last.ImageBinding? && last.textureIndex == before;
        assert Range(before + 1) == Range(before) + [before];
      } else {
        assert !last.ImageBinding?;
      }
    }
  }
}
